=== FILE: README.md ===
# Exercise tracker: store, log query and error mapping

A model of the bookkeeping behind a small exercise-tracker REST service (`server.js`).
Users own an embedded, append-only log of exercises and a lifetime `count` of them.
The service has four handlers: create-or-fetch a user by name, append an exercise,
read a user's log with an optional day range and limit, and list all users. An error
middleware turns a thrown error into a status and a plain-text message.

The document store is an immutable `Store` holding a sequence of `User` documents in
store order. The sequence keeps the order of `find({})` and the "first match" of
`findOne`. Dates are integer day numbers, because the service only compares and
renders them at day granularity. Each handler is a pure function. A writing handler
returns the next store, and every handler returns either a `Reply` (a status and a
JSON body) or the `JsError` it forwards to `next(err)`.

Modules:
- `Options`: `Option` and `Result`.
- `Schema`: the user and exercise documents (`server.js:34-51`) and the store
  invariant `Valid`. `Valid` says user ids are distinct and every `count` equals the
  length of its `exercises`.
- `StoreAdapter`: `findOne`, `findByIdAndUpdate` with `$push`/`$inc`, and the
  `{_id, name}` projection.
- `LogQuery`: the day-range filter and the limit of the get-log handler.
- `ErrorMapping`: the error middleware.
- `Handlers`: the four handlers.
- `Lifecycle`: properties that relate several handler calls.

Two details follow the code as written:
- The user schema does not mark `name` as required. So creating a user never fails
  with a validation error, and `CreateUser` always succeeds.
- The add-exercise reply takes `username` and `_id` from the document as it was
  before the update. Only `count` and `exercises` change in that update, so these
  fields equal the updated user's. `AddExercise` states them in terms of the updated
  user.

## Model

| member | source | states |
|---|---|---|
| StoreAdapter.FindFirst | server.js:88-89 | the result is the first user in store order whose field has the value, and there is none exactly when no user has that value |
| StoreAdapter.FindByIdAndUpdate | server.js:117-124 | an unknown id leaves the store unchanged and matches nothing; a known id appends the exercise and increments the count of that one user, and yields the document as it was before the update |
| StoreAdapter.Project | server.js:183 | the listing has one `{_id, name}` entry per user, in store order |
| StoreAdapter.ProjectAppend | server.js:181-188 | listing a concatenation of stores is the concatenation of their listings |
| ErrorMapping.ErrorResponse | server.js:64-82 | with field errors: 400 and the first field's message; otherwise the error's own non-zero status or 500, and its non-empty message or "Internal Server Error"; the status is never 0 and a generic message is never empty |
| LogQuery.FilterByDay | server.js:155-167 | an exercise is in the result exactly when it is stored and its day is not before `from` and not after `to`, with both boundary days included; the result is never longer than the input |
| LogQuery.FilterIsOrderedSelection | server.js:155-167 | the filter keeps every in-range exercise as many times as it occurs, drops all others, and preserves their relative order |
| LogQuery.FilterAppend | server.js:156-166 | filtering a concatenation is the concatenation of the filtered parts |
| LogQuery.FilterKeepsAllIff | server.js:155-167 | the filter returns the log untouched exactly when every exercise is in range, and always when neither bound is given |
| LogQuery.FilterIdempotent | server.js:156-166 | filtering an already filtered log with the same bounds changes nothing |
| LogQuery.TakeLimit | server.js:168-170 | the result is a prefix of the filtered log; its length is the limit when the limit is below the log's length; otherwise it is the whole log |
| LogQuery.ShapeExercises | server.js:151-171 | the handler's steps return exactly the first `limit` in-range exercises. The filter runs only when a bound is given, and truncation only on a non-empty log. |
| Handlers.CreateUser | server.js:87-105 | an existing name returns 200 with that user's id, name and count and leaves the store unchanged; a new name appends exactly one user with count 0 and no exercises and returns 201 with its name and id; the store invariant and distinct names are preserved |
| Handlers.AddExercise | server.js:110-137 | an unknown id leaves the store unchanged and yields an error that maps to 500. For a known id, only that user changes: count + 1 and the new exercise appended last. The exercise date is the request's date, or today if none is given. The reply is 201 with the user's name and id. The store invariant is preserved. |
| Handlers.GetUserLog | server.js:142-176 | an unknown id yields an error that maps to 500; a known id returns 200 with the stored id, name and count and the query's selection of the stored exercises |
| Handlers.GetLogAsWritten | server.js:142-150 | the id is read from the query string only: without a `userId` query parameter the reply is an error that maps to 500, whatever the route segment says |
| Handlers.GetLog | server.js:196 | the id is read from the `:userId` route segment when present, and the reply is then exactly the get-log reply for that id: for an existing id, 200 with its stored id, name, lifetime count and the query's selection of its exercises; for an unknown one, an error that maps to 500 |
| Handlers.ListUsers | server.js:181-188 | always 200, with one `{_id, name}` per user in store order |
| Lifecycle.CreateTwiceSameId | server.js:87-101 | creating the same name twice returns the same id, the second call changes nothing, and the store grows by at most one user |
| Lifecycle.LogCountIsLifetime | server.js:148-172 | under the store invariant the log's `count` is the length of the whole stored log. It is never less than the number of exercises returned, which are stored, in range, and in stored order. |
| Lifecycle.AppendThenLog | server.js:110-137 | after an append, the log reads back with count + 1 and the new exercise last. The reply to a ranged log query without a limit gains the exercise at its end exactly when its day is in range, and is otherwise unchanged. The stored day is the request's date, or today. |
| Lifecycle.AppendedDayRoundTrip | server.js:111-115 | an exercise appended with an explicit day is in the log reply for the query from that day to that day |
| Lifecycle.ListAfterCreate | server.js:96-101 | a new name adds exactly its `{_id, name}` to the end of the listing; an existing name leaves the listing unchanged |
| Lifecycle.ListAfterAppend | server.js:117-124 | an append, successful or not, leaves the listing unchanged |

## Left out

- HTTP wiring, body parsing, CORS, static files and listening (`server.js:1-31`, `190-203`): routing and I/O.
- The database connection and its global state (`server.js:15-22`). The store is a pure value, and the atomicity of the push-and-increment update is assumed.
- Identifier generation: user and exercise ids are parameters. A new user's id must not collide with an existing one.
- The clock: "now" is a day parameter `today`. The source reads the clock twice, once for the stored date and once for the reply. The model uses one reading for both, so a request that straddles midnight is not modelled.
- Date parsing, `toDateString` rendering and time zones: dates are day numbers, and the reply carries the day rather than its rendered string.
- Coercion of the query strings: `from`/`to` are optional day numbers and `limit` is an optional natural number. An empty parameter is absent. A limit of "0" is present and yields an empty log.
- LogQuery.TakeLimit: a negative, fractional or non-numeric limit is not modelled. A negative or fractional one passes the test at `server.js:168`, and the length assignment at line 169 then throws a RangeError, answered with 500. A non-numeric one fails the test and leaves the log whole.
- Handlers.CreateUser: `username` is always a string. A missing username, or an object such as `{"$ne": null}` in a JSON body, turns the lookup at `server.js:88` into a different query that can match an existing user. That case is not modelled.
- Handlers.AddExercise: `userId` is always a string. A missing or object-valued `userId` in the update at `server.js:117` is not modelled.
- Handlers.GetUserLog: the `userId` query parameter is always a single string. The query parser can also yield an object, such as `?userId[$ne]=x`, which the lookup at `server.js:148` runs as an operator query matching some other user. It can yield an array, such as `?userId=a&userId=b`, which is looked up as "any of these ids". Neither case is modelled, and `Handlers.GetLogAsWritten` and `Handlers.GetLog` share this gap.
- Store order is taken to be insertion order: the listing, the first match of a lookup by name, and the end position of a new user in `Lifecycle.ListAfterCreate` all rely on it. The database does not promise that order for an unsorted scan.
- ErrorMapping.ErrorResponse: a truthy `err.errors` object with no keys is not modelled. The model's field errors always have a first entry. For such an object, `server.js:72` reads `.message` of `undefined`, and the middleware itself throws.
- Casting of `duration` and `description`: they are an integer and a string. A request whose cast fails is not modelled, and neither is a duration that is not an integer.
- Store-level failures (lost connection, write errors) of every handler: they are I/O and are not generated by the model.
- The concurrent duplicate-create race: requests are handled one at a time. `CreateUser` preserves distinct names only under this sequential reading.
- The not-found middleware (`server.js:58-61`): the body parser always sets a body, so its 404 branch is unreachable.
- Dispatch from handlers to the error middleware: that middleware is registered before the routes. `ErrorResponse` is modelled as a standalone mapping, and handlers return the error value they forward.
- The exact text of the runtime's null-dereference message: `NullPropertyRead` uses the current V8 wording. Only its 500 status is asserted.

## Findings

| source | as written | input that shows it | evidently intended | confidence | as-written member | corrected member |
|---|---|---|---|---|---|---|
| server.js:148 | the get-log handler looks the user up by `req.query.userId`, although the route at `server.js:196` declares the id as the `:userId` path segment | `GET /api/exercise/log/abc123` with no query string, for an existing user `abc123`: the lookup is by an undefined id and the reply is 500 | the path segment names the user, so the reply is 200 with that user's log | medium, not executed | Handlers.GetLogAsWritten, Lifecycle.RouteIdIgnoredAsWritten | Handlers.GetLog |

=== FILE: errors.dfy ===
/**
 * The error-handling middleware: a thrown error value becomes an HTTP status and a
 * plain-text message.
 */
module ErrorMapping {
  import opened Options

  /** One failed field of a schema validation error. */
  datatype FieldError = FieldError(path: string, message: string)

  /** The `errors` object of a validation error, in key order. A validation error
      always names at least one field, so there is a first one. */
  datatype FieldErrors = FieldErrors(first: FieldError, rest: seq<FieldError>)

  /** An error value as the middleware reads it: `err.errors`, `err.status`, `err.message`. */
  datatype JsError = JsError(errors: Option<FieldErrors>, status: Option<int>, message: Option<string>)

  const BadRequest: int := 400
  const InternalError: int := 500
  const InternalErrorText: string := "Internal Server Error"

  /** JavaScript's `x || fallback` where `falsy` is the one falsy value of the type. */
  function JsOr<T(==)>(x: Option<T>, falsy: T, fallback: T): T
  {
    if x.Some? && x.value != falsy then x.value else fallback
  }

  /** The `TypeError` the runtime throws when a handler reads property `prop` of `null`. */
  function NullPropertyRead(prop: string): JsError
  {
    JsError(None, None, Some("Cannot read properties of null (reading '" + prop + "')"))
  }

  /** The status and message the middleware sends for `err`. */
  function ErrorResponse(err: JsError): (r: (int, string))
    ensures err.errors.Some? ==> r.0 == BadRequest && r.1 == err.errors.value.first.message
    ensures err.errors.None? && err.status.Some? && err.status.value != 0 ==> r.0 == err.status.value
    ensures err.errors.None? && (err.status.None? || err.status.value == 0) ==> r.0 == InternalError
    ensures err.errors.None? && err.message.Some? && err.message.value != "" ==> r.1 == err.message.value
    ensures err.errors.None? && (err.message.None? || err.message.value == "") ==> r.1 == InternalErrorText
    ensures r.0 != 0
    ensures err.errors.None? ==> r.1 != ""
  {
    if err.errors.Some? then
      (BadRequest, err.errors.value.first.message)
    else
      (JsOr(err.status, 0, InternalError), JsOr(err.message, "", InternalErrorText))
  }
}

=== FILE: handlers.dfy ===
/**
 * The four request handlers over the store: create-or-fetch a user, append an exercise,
 * read a user's log, list all users. Each returns the next store (when it writes) and
 * either a reply or the error value it forwards to the error middleware.
 */
module Handlers {
  import opened Options
  import opened Schema
  import opened ErrorMapping
  import opened StoreAdapter
  import opened LogQuery

  /** The JSON bodies of the successful replies. */
  datatype Body =
    | ExistingUser(id: string, username: string, count: int)
    | CreatedUser(name: string, id: string)
    | ExerciseAdded(username: string, description: string, duration: int, id: string, date: Day)
    | Log(id: string, name: string, count: int, exercises: seq<Exercise>)
    | Users(users: seq<Summary>)

  datatype Reply = Reply(status: int, body: Body)

  type Outcome = Result<Reply, JsError>

  /** The body fields of an add-exercise request; `date` is absent when empty. */
  datatype AddRequest = AddRequest(userId: string, description: string, duration: int, date: Option<Day>)

  const Created: int := 201
  const Success: int := 200

  /** Create-or-fetch by name. `freshId` is the identifier the generator would give a new
      user; it must not collide with an existing one. */
  function CreateUser(s: Store, username: string, freshId: string): (r: (Store, Outcome))
    requires !Has(s.users, Id, freshId)
    ensures Has(s.users, Name, username) ==>
      var u := s.users[FindFirst(s.users, Name, username).value];
      && r.0 == s
      && u.name == username
      && r.1 == Ok(Reply(Success, ExistingUser(u.id, username, u.count)))
    ensures !Has(s.users, Name, username) ==>
      && r.0.users == s.users + [NewUser(freshId, username)]
      && r.1 == Ok(Reply(Created, CreatedUser(username, freshId)))
    ensures Valid(s) ==> Valid(r.0)
    ensures NamesDistinct(s.users) ==> NamesDistinct(r.0.users)
  {
    match FindFirst(s.users, Name, username)
    case Some(i) =>
      var u := s.users[i];
      (s, Ok(Reply(Success, ExistingUser(u.id, u.name, u.count))))
    case None =>
      var u := NewUser(freshId, username);
      (Store(s.users + [u]), Ok(Reply(Created, CreatedUser(u.name, u.id))))
  }

  /** Append an exercise to the user with id `req.userId`; `exerciseId` is the generated
      exercise identifier and `today` the clock's day. */
  function AddExercise(s: Store, req: AddRequest, exerciseId: string, today: Day): (r: (Store, Outcome))
    ensures !Has(s.users, Id, req.userId) ==>
      && r.0 == s
      && r.1.Err?
      && ErrorResponse(r.1.error).0 == InternalError
    ensures Has(s.users, Id, req.userId) ==>
      var i := FindFirst(s.users, Id, req.userId).value;
      var e := Exercise(exerciseId, req.description, req.duration, DateOr(req.date, today));
      && |r.0.users| == |s.users|
      && r.0.users[i].id == req.userId
      && r.0.users[i].name == s.users[i].name
      && r.0.users[i].count == s.users[i].count + 1
      && r.0.users[i].exercises == s.users[i].exercises + [e]
      && (forall j :: 0 <= j < |s.users| && j != i ==> r.0.users[j] == s.users[j])
      && r.1 == Ok(Reply(Created, ExerciseAdded(r.0.users[i].name, req.description, req.duration, req.userId, e.date)))
    ensures Valid(s) ==> Valid(r.0)
  {
    var e := NewExercise(exerciseId, req.description, req.duration, req.date, today);
    var (s', before) := FindByIdAndUpdate(s, req.userId, e);
    match before
    case None => (s', Err(NullPropertyRead("name")))
    case Some(u) =>
      // the reply's date is recomputed from the request, not read back from the store
      var shown := DateOr(req.date, today);
      (s', Ok(Reply(Created, ExerciseAdded(u.name, req.description, req.duration, u.id, shown))))
  }

  /** The log of the user with id `userId`, with the query applied to its exercises. Here
      `userId` is whichever request parameter the handler takes the id from; see
      `GetLogAsWritten` and `GetLog` below. */
  function GetUserLog(s: Store, userId: string, q: Query): (r: Outcome)
    ensures !Has(s.users, Id, userId) ==> r.Err? && ErrorResponse(r.error).0 == InternalError
    ensures Has(s.users, Id, userId) ==>
      var u := s.users[FindFirst(s.users, Id, userId).value];
      && r.Ok?
      && r.value.status == Success
      && r.value.body.Log?
      && r.value.body.id == userId
      && r.value.body.name == u.name
      && r.value.body.count == u.count
      && r.value.body.exercises == Select(u.exercises, q)
  {
    match FindFirst(s.users, Id, userId)
    case None => Err(NullPropertyRead("toObject"))
    case Some(i) =>
      var u := s.users[i];
      Ok(Reply(Success, Log(u.id, u.name, u.count, Select(u.exercises, q))))
  }

  /** A get-log request: the optional `:userId` route segment, the optional `userId` query
      parameter, and the `from`/`to`/`limit` query. */
  datatype LogRequest = LogRequest(routeUserId: Option<string>, queryUserId: Option<string>, query: Query)

  /** The get-log handler as written: it reads the id from the query string only and ignores
      the route segment. With no `userId` in the query the lookup is by an undefined id,
      matches no document, and the read of the null result fails. */
  function GetLogAsWritten(s: Store, req: LogRequest): (r: Outcome)
    ensures req.queryUserId.None? ==> r.Err? && ErrorResponse(r.error).0 == InternalError
    ensures req.queryUserId.Some? ==> r == GetUserLog(s, req.queryUserId.value, req.query)
  {
    match req.queryUserId
    case None => Err(NullPropertyRead("toObject"))
    case Some(id) => GetUserLog(s, id, req.query)
  }

  /** The get-log handler reading the id the route declares: the route segment when present,
      else the query parameter. */
  function GetLog(s: Store, req: LogRequest): (r: Outcome)
    ensures req.routeUserId.Some? ==> r == GetUserLog(s, req.routeUserId.value, req.query)
    ensures req.routeUserId.Some? && Has(s.users, Id, req.routeUserId.value) ==>
      r.Ok? && r.value.status == Success && r.value.body.Log? && r.value.body.id == req.routeUserId.value
    ensures req.routeUserId.Some? && !Has(s.users, Id, req.routeUserId.value) ==>
      r.Err? && ErrorResponse(r.error).0 == InternalError
    ensures req.routeUserId.None? ==> r == GetLogAsWritten(s, req)
  {
    match req.routeUserId
    case Some(id) => GetUserLog(s, id, req.query)
    case None => GetLogAsWritten(s, req)
  }

  /** Every user as `{_id, name}`, in store order. */
  function ListUsers(s: Store): (r: Outcome)
    ensures r.Ok? && r.value.status == Success && r.value.body.Users?
    ensures |r.value.body.users| == |s.users|
    ensures forall i :: 0 <= i < |s.users| ==> r.value.body.users[i] == Summary(s.users[i].id, s.users[i].name)
  {
    Ok(Reply(Success, Users(Project(s.users))))
  }
}

=== FILE: lifecycle.dfy ===
/**
 * Properties that relate several handler calls: create-or-fetch is idempotent, an
 * appended exercise shows up at the end of the log, the log's count is the lifetime
 * count, and the user list follows the writes.
 */
module Lifecycle {
  import opened Options
  import opened Schema
  import opened StoreAdapter
  import opened ErrorMapping
  import opened LogQuery
  import opened Handlers

  /** Creating the same name twice gives the same id both times, the second call changes
      nothing, and the store grows by at most one user. */
  lemma CreateTwiceSameId(s: Store, name: string, id1: string, id2: string)
    requires !Has(s.users, Id, id1)
    requires !Has(CreateUser(s, name, id1).0.users, Id, id2)
    ensures var (s1, r1) := CreateUser(s, name, id1);
      var (s2, r2) := CreateUser(s1, name, id2);
      && s2 == s1
      && |s2.users| <= |s.users| + 1
      && r2.Ok? && r2.value.status == Success
      && r2.value.body.ExistingUser?
      && r2.value.body.id == r1.value.body.id
  {
    var (s1, r1) := CreateUser(s, name, id1);
    if !Has(s.users, Name, name) {
      assert KeyOf(s1.users[|s.users|], Name) == name;
    } else {
      var i := FindFirst(s.users, Name, name).value;
      assert FindFirst(s1.users, Name, name) == Some(i);
    }
  }

  /** The count a log reply carries is the user's lifetime count: under the store
      invariant it is the length of the whole stored log, however the query narrows the
      returned exercises, which are stored ones, in range, in stored order. */
  lemma LogCountIsLifetime(s: Store, userId: string, q: Query)
    requires Valid(s)
    requires Has(s.users, Id, userId)
    ensures var r := GetUserLog(s, userId, q);
      var u := s.users[FindFirst(s.users, Id, userId).value];
      && r.Ok?
      && r.value.body.count == |u.exercises|
      && |r.value.body.exercises| <= r.value.body.count
      && (forall e :: e in r.value.body.exercises ==> e in u.exercises && InRange(e.date, q.from, q.to))
      && IsSubsequence(r.value.body.exercises, u.exercises)
  {
    var u := s.users[FindFirst(s.users, Id, userId).value];
    var f := FilterByDay(u.exercises, q.from, q.to);
    FilterIsOrderedSelection(u.exercises, q.from, q.to);
    PrefixOfSubsequence(f, u.exercises, |Select(u.exercises, q)|);
  }

  /** An append finds the same user again under the same id afterwards. Follows from the
      contracts of `FindFirst` and `AddExercise`: only that user changes, and its id stays. */
  lemma AppendKeepsIndex(s: Store, req: AddRequest, exerciseId: string, today: Day)
    requires Has(s.users, Id, req.userId)
    ensures FindFirst(AddExercise(s, req, exerciseId, today).0.users, Id, req.userId)
         == FindFirst(s.users, Id, req.userId)
  {
  }

  /** After a successful append, the user's log reads back with the count one higher and
      the new exercise last; a ranged log query gains the exercise exactly when its day is
      in range; and the stored day is the request's date, or today when none is given. */
  lemma AppendThenLog(s: Store, req: AddRequest, exerciseId: string, today: Day, q: Query)
    requires Has(s.users, Id, req.userId)
    ensures var (s', r) := AddExercise(s, req, exerciseId, today);
      var before := s.users[FindFirst(s.users, Id, req.userId).value];
      var log := GetUserLog(s', req.userId, q);
      var e := Exercise(exerciseId, req.description, req.duration, r.value.body.date);
      && log.Ok?
      && log.value.body.count == before.count + 1
      && GetUserLog(s', req.userId, Query(None, None, None)).value.body.exercises == before.exercises + [e]
      && GetUserLog(s', req.userId, Query(q.from, q.to, None)).value.body.exercises
         == GetUserLog(s, req.userId, Query(q.from, q.to, None)).value.body.exercises
            + (if InRange(e.date, q.from, q.to) then [e] else [])
      && (req.date.Some? ==> e.date == req.date.value)
      && (req.date.None? ==> e.date == today)
  {
    var (s', r) := AddExercise(s, req, exerciseId, today);
    AppendKeepsIndex(s, req, exerciseId, today);
    var before := s.users[FindFirst(s.users, Id, req.userId).value];
    var e := Exercise(exerciseId, req.description, req.duration, r.value.body.date);
    FilterKeepsAllIff(before.exercises + [e], None, None);
    FilterAppend(before.exercises, [e], q.from, q.to);
  }

  /** An exercise appended with an explicit day is returned by the log query for that day:
      the append's date survives the round trip through the store. */
  lemma AppendedDayRoundTrip(s: Store, req: AddRequest, exerciseId: string, today: Day, d: Day)
    requires Has(s.users, Id, req.userId)
    requires req.date == Some(d)
    ensures var s' := AddExercise(s, req, exerciseId, today).0;
      Exercise(exerciseId, req.description, req.duration, d)
        in GetUserLog(s', req.userId, Query(Some(d), Some(d), None)).value.body.exercises
  {
    var s' := AddExercise(s, req, exerciseId, today).0;
    AppendKeepsIndex(s, req, exerciseId, today);
    var i := FindFirst(s.users, Id, req.userId).value;
    var e := Exercise(exerciseId, req.description, req.duration, d);
    assert e in s'.users[i].exercises;
  }

  /** Creating a new name appends exactly its summary to the user list; fetching an
      existing name leaves the list as it was. */
  lemma ListAfterCreate(s: Store, name: string, freshId: string)
    requires !Has(s.users, Id, freshId)
    ensures var (s', _) := CreateUser(s, name, freshId);
      && (!Has(s.users, Name, name) ==>
           ListUsers(s').value.body.users == ListUsers(s).value.body.users + [Summary(freshId, name)])
      && (Has(s.users, Name, name) ==> ListUsers(s') == ListUsers(s))
  {
    var (s', _) := CreateUser(s, name, freshId);
    if !Has(s.users, Name, name) {
      ProjectAppend(s.users, [NewUser(freshId, name)]);
    }
  }

  /** Appending an exercise, successful or not, leaves the user list as it was. */
  lemma ListAfterAppend(s: Store, req: AddRequest, exerciseId: string, today: Day)
    ensures ListUsers(AddExercise(s, req, exerciseId, today).0) == ListUsers(s)
  {
    var s' := AddExercise(s, req, exerciseId, today).0;
    assert Project(s'.users) == Project(s.users);
  }

  /** `GET /api/exercise/log/abc123` for an existing user `abc123`: the handler as written
      answers with an error that maps to 500, while reading the route segment gives the log.
      Follows from the contracts of `GetLogAsWritten`, `GetLog` and `GetUserLog`. */
  lemma RouteIdIgnoredAsWritten()
    ensures var s := Store([User("abc123", "alice", 0, [])]);
      var req := LogRequest(Some("abc123"), None, Query(None, None, None));
      && GetLogAsWritten(s, req).Err?
      && ErrorResponse(GetLogAsWritten(s, req).error).0 == InternalError
      && GetLog(s, req).Ok?
      && GetLog(s, req).value.body.id == "abc123"
  {
  }
}

=== FILE: logquery.dfy ===
/**
 * The log query of the get-user handler: keep the exercises whose day lies in the
 * inclusive range [from, to] (either bound may be absent), then keep the first `limit`.
 */
module LogQuery {
  import opened Options
  import opened Schema

  /** The `from`, `to` and `limit` query parameters; an empty parameter is absent. */
  datatype Query = Query(from: Option<Day>, to: Option<Day>, limit: Option<nat>)

  /** Not before the `from` day and not after the `to` day; both boundary days are in. */
  predicate InRange(d: Day, from: Option<Day>, to: Option<Day>)
  {
    !(from.Some? && d < from.value) && !(to.Some? && d > to.value)
  }

  /** `a` can be obtained from `b` by deleting elements (matched greedily from the front). */
  predicate IsSubsequence<T(==)>(a: seq<T>, b: seq<T>)
    decreases |b|
  {
    |a| == 0 || (|b| > 0 && if a[0] == b[0] then IsSubsequence(a[1..], b[1..]) else IsSubsequence(a, b[1..]))
  }

  /** A prefix of a subsequence is a subsequence. */
  lemma {:induction false} PrefixOfSubsequence<T>(a: seq<T>, b: seq<T>, n: nat)
    requires IsSubsequence(a, b)
    requires n <= |a|
    ensures IsSubsequence(a[..n], b)
    decreases |b|
  {
    if n > 0 {
      if a[0] == b[0] {
        assert a[..n][1..] == a[1..][..n - 1];
        PrefixOfSubsequence(a[1..], b[1..], n - 1);
      } else {
        PrefixOfSubsequence(a, b[1..], n);
      }
    }
  }

  /** The date filter: the in-range exercises, and only those. */
  function FilterByDay(xs: seq<Exercise>, from: Option<Day>, to: Option<Day>): (r: seq<Exercise>)
    ensures |r| <= |xs|
    ensures forall e :: e in r <==> e in xs && InRange(e.date, from, to)
    decreases |xs|
  {
    if |xs| == 0 then []
    else
      assert xs == [xs[0]] + xs[1..];
      var rest := FilterByDay(xs[1..], from, to);
      if InRange(xs[0].date, from, to) then [xs[0]] + rest else rest
  }

  /** The filter keeps each in-range exercise as often as it occurs, drops every other one,
      and keeps the original order. */
  lemma {:induction false} FilterIsOrderedSelection(xs: seq<Exercise>, from: Option<Day>, to: Option<Day>)
    ensures forall e :: multiset(FilterByDay(xs, from, to))[e] == if InRange(e.date, from, to) then multiset(xs)[e] else 0
    ensures IsSubsequence(FilterByDay(xs, from, to), xs)
    decreases |xs|
  {
    if |xs| > 0 {
      assert xs == [xs[0]] + xs[1..];
      var rest := FilterByDay(xs[1..], from, to);
      FilterIsOrderedSelection(xs[1..], from, to);
      if !InRange(xs[0].date, from, to) {
        if |rest| > 0 {
          assert rest[0] in rest;
        }
      }
    }
  }

  /** `if (limit && limit < length) length = limit`: a prefix, of length `limit` when the
      list is longer, otherwise the whole list. */
  function TakeLimit(xs: seq<Exercise>, limit: Option<nat>): (r: seq<Exercise>)
    ensures |r| <= |xs| && r == xs[..|r|]
    ensures limit.Some? && limit.value < |xs| ==> |r| == limit.value
    ensures limit.None? || limit.value >= |xs| ==> r == xs
  {
    if limit.Some? && limit.value < |xs| then xs[..limit.value] else xs
  }

  /** The exercises a log query returns: the first `limit` of the in-range ones. */
  function Select(xs: seq<Exercise>, q: Query): seq<Exercise>
  {
    TakeLimit(FilterByDay(xs, q.from, q.to), q.limit)
  }

  /** Filtering distributes over concatenation. */
  lemma {:induction false} FilterAppend(a: seq<Exercise>, b: seq<Exercise>, from: Option<Day>, to: Option<Day>)
    ensures FilterByDay(a + b, from, to) == FilterByDay(a, from, to) + FilterByDay(b, from, to)
    decreases |a|
  {
    if |a| == 0 {
      assert a + b == b;
    } else {
      assert (a + b)[0] == a[0];
      assert (a + b)[1..] == a[1..] + b;
      FilterAppend(a[1..], b, from, to);
    }
  }

  /** Without bounds the filter returns the list untouched; more generally it returns the
      list untouched exactly when every exercise is in range. */
  lemma {:induction false} FilterKeepsAllIff(xs: seq<Exercise>, from: Option<Day>, to: Option<Day>)
    ensures FilterByDay(xs, from, to) == xs <==> forall i :: 0 <= i < |xs| ==> InRange(xs[i].date, from, to)
    ensures from.None? && to.None? ==> FilterByDay(xs, from, to) == xs
    decreases |xs|
  {
    if |xs| > 0 {
      var rest := FilterByDay(xs[1..], from, to);
      FilterKeepsAllIff(xs[1..], from, to);
      assert forall i :: 1 <= i < |xs| ==> xs[i] == xs[1..][i - 1];
      if InRange(xs[0].date, from, to) {
        assert FilterByDay(xs, from, to) == [xs[0]] + rest;
        assert xs == [xs[0]] + xs[1..];
        if FilterByDay(xs, from, to) == xs {
          assert rest == xs[1..];
        }
      } else {
        assert FilterByDay(xs, from, to) == rest;
        assert |rest| < |xs|;
      }
    }
  }

  /** Filtering twice with the same bounds is filtering once. */
  lemma {:induction false} FilterIdempotent(xs: seq<Exercise>, from: Option<Day>, to: Option<Day>)
    ensures FilterByDay(FilterByDay(xs, from, to), from, to) == FilterByDay(xs, from, to)
  {
    var r := FilterByDay(xs, from, to);
    FilterKeepsAllIff(r, from, to);
    forall i | 0 <= i < |r|
      ensures InRange(r[i].date, from, to)
    {
      assert r[i] in r;
    }
  }

  /** The steps of the get-user handler as written: the filter runs only when a bound is
      given, over the whole list one exercise at a time, and the truncation only when the
      log is non-empty. The result is the query's selection. */
  method ShapeExercises(exs: seq<Exercise>, q: Query) returns (r: seq<Exercise>)
    ensures r == Select(exs, q)
  {
    r := exs;
    if |exs| == 0 {
      return;
    }
    if q.from.Some? || q.to.Some? {
      var kept: seq<Exercise> := [];
      var i := 0;
      while i < |exs|
        invariant 0 <= i <= |exs|
        invariant kept == FilterByDay(exs[..i], q.from, q.to)
      {
        assert exs[..i + 1] == exs[..i] + [exs[i]];
        FilterAppend(exs[..i], [exs[i]], q.from, q.to);
        if InRange(exs[i].date, q.from, q.to) {
          kept := kept + [exs[i]];
        }
        i := i + 1;
      }
      assert exs[..|exs|] == exs;
      r := kept;
    } else {
      FilterKeepsAllIff(exs, q.from, q.to);
    }
    if q.limit.Some? && q.limit.value < |r| {
      r := r[..q.limit.value];
    }
  }
}

=== FILE: options.dfy ===
/** Absent-or-present values and success-or-failure results, used across the model. */
module Options {

  /** A value that may be absent (a JS `undefined`/`null`, or a missing query parameter). */
  datatype Option<+T> = None | Some(value: T)

  /** What a handler produces: a reply, or the error value it forwards to `next(err)`. */
  datatype Result<+T, +E> = Ok(value: T) | Err(error: E)
}

=== FILE: schema.dfy ===
/**
 * The two document kinds of the store: a user, and the exercises embedded in it.
 * Mongoose's collection becomes a plain sequence of users, kept in store order.
 */
module Schema {
  import opened Options

  /** A calendar day number; stands in for the stored JS `Date`, which is only ever
      compared and rendered at day granularity. */
  type Day = int

  /** An embedded exercise document. */
  datatype Exercise = Exercise(id: string, description: string, duration: int, date: Day)

  /** A user document; `count` is the lifetime number of appended exercises. */
  datatype User = User(id: string, name: string, count: int, exercises: seq<Exercise>)

  /** The user collection, in the order a full scan returns it. */
  datatype Store = Store(users: seq<User>)

  /** The `{_id, name}` projection of a user. */
  datatype Summary = Summary(id: string, name: string)

  /** The two fields the handlers look users up by. */
  datatype Field = Name | Id

  function KeyOf(u: User, f: Field): string
  {
    match f
    case Name => u.name
    case Id => u.id
  }

  /** Some user of `users` has value `v` in field `f`. */
  predicate Has(users: seq<User>, f: Field, v: string)
  {
    exists j :: 0 <= j < |users| && KeyOf(users[j], f) == v
  }

  predicate IdsDistinct(users: seq<User>)
  {
    forall i, j :: 0 <= i < j < |users| ==> users[i].id != users[j].id
  }

  predicate NamesDistinct(users: seq<User>)
  {
    forall i, j :: 0 <= i < j < |users| ==> users[i].name != users[j].name
  }

  /** Every user's counter agrees with the length of its log. */
  predicate CountsMatch(users: seq<User>)
  {
    forall i :: 0 <= i < |users| ==> users[i].count == |users[i].exercises|
  }

  predicate Valid(s: Store)
  {
    IdsDistinct(s.users) && CountsMatch(s.users)
  }

  /** A freshly constructed user: the schema defaults give count 0 and no exercises. */
  function NewUser(id: string, name: string): User
  {
    User(id, name, 0, [])
  }

  /** `date || new Date()`: the request's date when one is given, else today. */
  function DateOr(date: Option<Day>, today: Day): Day
  {
    if date.Some? then date.value else today
  }

  function NewExercise(id: string, description: string, duration: int, date: Option<Day>, today: Day): Exercise
  {
    Exercise(id, description, duration, DateOr(date, today))
  }

  /** The single update `{$push: {exercises: e}, $inc: {count: 1}}`. */
  function WithExercise(u: User, e: Exercise): User
  {
    u.(count := u.count + 1, exercises := u.exercises + [e])
  }
}

=== FILE: store.dfy ===
/**
 * The store operations the handlers use: findOne by a field, findByIdAndUpdate with a
 * push and an increment, and find-all projected to `{_id, name}`.
 */
module StoreAdapter {
  import opened Options
  import opened Schema

  /** `findOne({f: v})`: the index of the first user in store order whose field `f` is `v`. */
  function FindFirst(users: seq<User>, f: Field, v: string): (r: Option<nat>)
    ensures r.Some? ==> r.value < |users| && KeyOf(users[r.value], f) == v
    ensures r.Some? ==> forall j :: 0 <= j < r.value ==> KeyOf(users[j], f) != v
    ensures r.None? <==> !Has(users, f, v)
    decreases |users|
  {
    if |users| == 0 then None
    else if KeyOf(users[0], f) == v then Some(0)
    else
      match FindFirst(users[1..], f, v)
      case None =>
        assert forall j :: 1 <= j < |users| ==> users[j] == users[1..][j - 1];
        None
      case Some(i) => Some(i + 1)
  }

  /** `findByIdAndUpdate(id, {$push: {exercises: e}, $inc: {count: 1}})`: the updated
      store, and the matched document as it was BEFORE the update (or none). */
  function FindByIdAndUpdate(s: Store, id: string, e: Exercise): (r: (Store, Option<User>))
    ensures !Has(s.users, Id, id) ==> r == (s, None)
    ensures Has(s.users, Id, id) ==>
      var i := FindFirst(s.users, Id, id).value;
      && r.1 == Some(s.users[i])
      && r.0.users == s.users[i := WithExercise(s.users[i], e)]
  {
    match FindFirst(s.users, Id, id)
    case None => (s, None)
    case Some(i) => (Store(s.users[i := WithExercise(s.users[i], e)]), Some(s.users[i]))
  }

  /** `find({}).select("_id name")`: every user's summary, in store order. */
  function Project(users: seq<User>): (r: seq<Summary>)
    ensures |r| == |users|
    ensures forall i :: 0 <= i < |users| ==> r[i].id == users[i].id && r[i].name == users[i].name
    decreases |users|
  {
    if |users| == 0 then [] else [Summary(users[0].id, users[0].name)] + Project(users[1..])
  }

  /** Projection distributes over concatenation, so appending a user appends one summary.
      Follows from `Project`'s index-by-index contract. */
  lemma ProjectAppend(a: seq<User>, b: seq<User>)
    ensures Project(a + b) == Project(a) + Project(b)
  {
  }
}
